=== FILE: README.md ===
# ClubInvest_Z page logic in Dafny

ClubInvest_Z is a single-page web front end for a private investment club.
Members propose investments whose amount is encrypted with a fully
homomorphic encryption (FHE) gateway and stored on a ledger contract. The
page lists the proposals and filters them by a search term and a category.
It shows club-wide statistics, and it can reveal a proposal's amount
through a decryption verifier whose proof goes back to the ledger.

This project models the page's core logic, all of it in
`frontend/web/src/App.tsx`:

- `loadData`: reloads the record list and normalises each ledger entry
  into the page's `InvestmentData`.
- `updateClubStats`: the five statistics.
- `filteredInvestments`: the search and category filter.
- `createInvestment`: the create protocol and its transaction-status banner.
- `decryptInvestment`: the reveal protocol.

The wallet, the contracts, the encryption gateway and the decryption
verifier are not modelled as code. Their replies are inputs: a value, `null`
or a thrown error, and each possibility has its own branch. Each protocol is
a pure function of those replies. It returns everything the page does:

- the external calls, in order;
- the statuses shown;
- the resulting UI or page state;
- for the reveal, the ledger state after the verification exchange.

Files:

- `seqs.dfy`: order-preserving filtering (`Array.prototype.filter`),
  subsequences, contiguous containment (`includes`) and sums (`reduce`),
  with their permutation and concatenation laws.
- `js.dfy`: the JavaScript semantics the page relies on:
  - numbers that may be NaN;
  - the `||` fallback;
  - caught errors;
  - `parseInt` without a radix, following ECMAScript;
  - decimal rendering in template literals.
- `records.dfy`: the ledger entry, the page record, and the normalisation
  done by `loadData`.
- `stats.dfy`: `updateClubStats`.
- `search.dfy`: `filteredInvestments`.
- `controller.dfy`: the page state, the session guard and `loadData`.
- `create.dfy`: `createInvestment`.
- `reveal.dfy`: `decryptInvestment`.

What the code does, and therefore what the model does:

- `createInvestment` validates nothing. An empty name is submitted as is. An
  unparseable amount becomes 0. A risk level of 0 or one that does not parse
  becomes 5. Nothing bounds the risk level to [1, 10].
- No in-flight lock exists. `creatingInvestment` only disables a button, and
  the protocol never reads it. No `ConflictError` exists either.
- Failures are classified only as "Transaction rejected" (the error message
  contains `rejected`) or "Creation failed". A signer that comes back
  `null` counts as a failure too.
- `decryptInvestment` returns the clear value and never writes it into the
  page's record list or statistics. Those change only on the next load.
- Every loaded record gets the category `"Investment"`. The risk level is
  read from the ledger's first public value, and the category chosen at
  creation is dropped. So selecting any other category hides every record.
- After a successful create, the page reloads. It does not refresh the list
  incrementally.

## Model

| member | source | states |
|---|---|---|
| Js.ParseIntOfIntToString | frontend/web/src/App.tsx:156 | `parseInt` reads back every integer written in decimal, sign included |
| Js.ParseIntWithoutDigits | frontend/web/src/App.tsx:156 | text with no ASCII decimal digit parses to NaN, whatever white space, sign or letters it holds (a hexadecimal literal needs its leading 0) |
| Js.IntToStringInjective | frontend/web/src/App.tsx:157 | distinct integers have distinct decimal renderings |
| Seqs.Filter | frontend/web/src/App.tsx:128 | `filter` keeps exactly the elements passing the test and is never longer than its input |
| Seqs.FilterIsSubseq | frontend/web/src/App.tsx:240-245 | `filter` output is an order-preserving subsequence of its input |
| Seqs.FilterLengthPermutation | frontend/web/src/App.tsx:128 | how many elements pass a filter does not depend on their order |
| Seqs.FilterCountsPositions | frontend/web/src/App.tsx:128 | the length of a `filter` result is the number of positions whose element passes the test |
| Seqs.SumByPermutation | frontend/web/src/App.tsx:129-131 | a `reduce` sum depends only on the multiset of elements, not on their order |
| Seqs.ContainsIffOccurs | frontend/web/src/App.tsx:241-242 | `includes` holds exactly when the needle occurs at some position of the haystack, in both directions |
| Records.Normalize | frontend/web/src/App.tsx:95-108 | a loaded record copies id, name, description, creator, verified flag and timestamp; NaN or zero numeric fields become 0; the category is always "Investment"; the risk level is never 0, is 5 when the first public value is NaN or zero, and equals that value exactly when it is truthy |
| Records.LoadRecords | frontend/web/src/App.tsx:92-111 | every record shown comes from one of the listed ids whose read succeeded and is that read's normalisation; no more records than ids |
| Records.LoadRecordsIsFilterThenNormalize | frontend/web/src/App.tsx:92-111 | loading is "keep the ids whose read succeeds, in order, then normalise each one": nothing is reordered, duplicated or invented |
| Records.LoadRecordsAllReadable | frontend/web/src/App.tsx:92-108 | when every read succeeds there is exactly one record per id, in id order |
| Stats.Creators | frontend/web/src/App.tsx:130 | the creator set holds exactly the creators appearing in the list; it has at most one element per record and at least one for a non-empty list |
| Stats.ComputeStats | frontend/web/src/App.tsx:126-140 | total = length; verified and active members never exceed the total; active members is at least 1 for a non-empty list; the empty list gives all zeros (average 0, not NaN); average × length = sum of first public values |
| Stats.TotalInvestmentIsSumOverVerified | frontend/web/src/App.tsx:128-129 | the total investment is the sum of the clear amounts of exactly the verified records |
| Stats.VerifiedCountIsVerifiedPositions | frontend/web/src/App.tsx:128 | the verified count is the number of positions in the list holding a record whose flag is set |
| Stats.ActiveMembersAreDistinctCreators | frontend/web/src/App.tsx:130 | the member count is the number of distinct creators among the records |
| Stats.StatsPermutationInvariant | frontend/web/src/App.tsx:126-131 | reordering the records changes no statistic |
| Stats.AppendUnverified | frontend/web/src/App.tsx:127-129 | a further unverified record adds one proposal and changes neither the verified count nor the total investment |
| Stats.UnverifiedAmountIrrelevant | frontend/web/src/App.tsx:129 | the clear amount carried by an unverified record affects no statistic |
| Stats.SingleVerifiedRecord | frontend/web/src/App.tsx:126-131 | one verified record with clear amount 1000 gives 1 proposal, 1 verified, total 1000, 1 member |
| Search.FilterInvestments | frontend/web/src/App.tsx:240-245 | the shown list is an order-preserving subsequence of the records, holding exactly those whose lower-cased name or description contains the lower-cased term and whose category matches (or the selection is "all"); its length is the number of matching positions, so every matching record is kept, duplicates included |
| Search.EmptySearchShowsAll | frontend/web/src/App.tsx:240-245 | an empty term with category "all" shows every record, in order |
| Search.OtherCategoryShowsNothing | frontend/web/src/App.tsx:240-245 | since loading gives every record the category "Investment", selecting any other category (DAO, DeFi, NFT, Infrastructure) shows nothing |
| Search.FilterInvestmentsIdempotent | frontend/web/src/App.tsx:240-245 | filtering the shown list again with the same term and category changes nothing |
| Controller.Load | frontend/web/src/App.tsx:78-121 | loading always ends with `loading` false. Not connected, or no read-only contract: nothing else changes. The contract address is recorded as soon as it is read, even if the id list then fails, and is kept when its read fails. The record list changes only when the address and the id list were both obtained, and then it is the loaded list. The statistics always match the list shown |
| Controller.InitialPageCoherent | frontend/web/src/App.tsx:34-58 | the initial empty list and all-zero statistics agree |
| Create.RiskOf | frontend/web/src/App.tsx:166 | `parseInt(riskLevel) \|\| 5` is never 0 |
| Create.FailureMessage | frontend/web/src/App.tsx:184 | "Transaction rejected" exactly when the error has a message containing "rejected", "Creation failed" otherwise (both the message kind and its wording) |
| Create.Attempt | frontend/web/src/App.tsx:152-172 | the `try` block calls signer, encrypt, submit, confirm in that order. Each call happens only once the previous one succeeded. The encrypted amount is the parsed amount. The submitted request carries the gateway's output. The error that ends the block is the one the failing step threw ("No contract" for a `null` signer). Success means all four calls were made and the confirmation succeeded |
| Create.CreateInvestment | frontend/web/src/App.tsx:142-190 | Not connected: one "Please connect wallet" error and no call. Otherwise the calls and the caught error are those of the `try` block; the statuses start at "creating", follow the status machine and end in success or error; the busy flag is cleared. It succeeds and reloads exactly when no error was caught. "Waiting" is shown exactly when the ledger accepted. On success the form is reset and the dialog closed. On failure the form is kept and the message is classified from the caught error |
| Create.CreateCallsInOrder | frontend/web/src/App.tsx:152-172 | every external call of a run is preceded by the success of the previous one, and only a connected session calls anything |
| Create.CreateSubmitsParsedForm | frontend/web/src/App.tsx:158-168 | the ledger request carries the time-based id, the form's name and description, the gateway's ciphertext and proof, the parsed risk level, and 0 as second public value |
| Create.CreateOutcomeFollowsReplies | frontend/web/src/App.tsx:152-189 | for a connected session, the caught error is the one thrown by the first failing step (signer, gateway, submission, confirmation), the banner is classified from it, and when every step succeeds the run ends with "Investment created!", a reset form and a reload |
| Create.AmountOfDecimal | frontend/web/src/App.tsx:156 | an amount typed in decimal is encrypted as that integer, negative values included |
| Create.RiskOfDecimal | frontend/web/src/App.tsx:166 | a risk level typed in decimal is submitted as is, except 0, which becomes 5; no range check |
| Create.UnparseableDefaults | frontend/web/src/App.tsx:156-166 | text with no digit gives amount 0 and risk level 5 |
| Create.SubmittedRiskLevelSurvivesLoad | frontend/web/src/App.tsx:95-108 | read back from a ledger that stores the submitted values, a created record shows the submitted risk level as both first public value and risk level, and 0 as second public value |
| Create.IdForInjective | frontend/web/src/App.tsx:157 | record ids from distinct clock readings differ; equal readings collide |
| Create.NoSignerFailsBeforeEncrypting | frontend/web/src/App.tsx:153-154 | a `null` signer ends the run after the signer call with "Creation failed" |
| Create.NoInFlightGuard | frontend/web/src/App.tsx:142-150 | a create started while the busy flag is set makes the same calls and shows the same statuses as one started while it is clear |
| Reveal.DecryptInvestment | frontend/web/src/App.tsx:192-223 | Not connected: null, with no call. The page (list, statistics) is never touched. No read-only contract: exactly one call (getting it), null, and the ledger untouched. A failed record read, a missing or throwing signer, and a failed handle read each end the calls at that step. A failure before the exchange (no read-only contract, a failed read, no signer, a failed handle read) gives null with the ledger untouched. An already verified record returns its stored value (NaN or 0 become 0) without signer or verifier. An unverified record with a signer and a readable handle always goes through the exchange, with its own handle and addressed to it; any exchange is of that kind and needs a connected session and a read-only contract. Its result is the clear value for the handle, or null. The ledger changes only through the exchange |
| Reveal.RevealReturnsVerifierValue | frontend/web/src/App.tsx:204-217 | for an unverified record with a signer and handle `h`, the reveal makes the five calls in order, leaves the ledger the exchange produced, and returns the verifier's clear value for `h` (NaN when absent), or null when the verifier fails or gives no result |
| Reveal.RevealVerifiedIdempotent | frontend/web/src/App.tsx:199-202 | revealing a verified record twice gives the same value and leaves the ledger unchanged |
| Reveal.RevealAfterExchange | frontend/web/src/App.tsx:199-217 | once a successful exchange leaves the record verified with the revealed amount, the next reveal returns the same value from the store without calling the verifier |

## Left out

- The rendered page (JSX), the modals, the detail view and the
  `handleCheckAvailable` button. They display state and compute nothing the
  core relies on.
- FHEVM initialisation and the wallet hooks. The session is an input: a
  connection flag and an optional address.
- The contract, the encryption gateway and the decryption verifier's
  internals. Their replies are inputs, and the ledger of the reveal protocol
  is an abstract state.
- The `setTimeout` that hides the status banner after 2 or 3 seconds, and
  the timing of `window.location.reload()`. The model records that a reload
  happens, not when.
- `Date.now()`: the clock reading is a parameter of the create protocol.
- Js.Number: JavaScript numbers are modelled as NaN or an unbounded integer.
  Fractions, infinities, negative zero as a separate value, and the loss of
  precision above 2^53 are not modelled. `parseInt` results are exact
  integers. The average return is an exact rational (`real`), not a rounded
  double.
- Search.Matches: `toLowerCase` is a parameter. The model does not fix
  Unicode's lower-casing table.
- Create.FailureMessage: a thrown object whose `message` is missing or
  undefined gives "Creation failed", as in JavaScript. A thrown object whose
  `message` is some other non-string value counts as having no message here,
  whereas in JavaScript a value with no `includes` method would throw inside
  the `catch` clause.
- Create.CreateInvestment: `Js.Thrown` represents thrown objects only. When
  the `try` block throws `null` or `undefined`, reading `e.message` throws a
  TypeError inside `catch`: no error banner is set, the status stays at
  "Creating…" or "Waiting…", `finally` still clears the busy flag, and the
  rejection escapes the handler. The promise that a failed run ends in an
  error status therefore holds for thrown objects only.
- Controller.Load: the React effect that triggers a load when the connection
  changes is not modelled. `Load` is the body of one load, given the replies
  it receives.
- Overlapping runs. Each create, reveal or load is modelled alone, against
  one set of replies and one ledger state. Two creates in flight (the first
  run's `finally` clears the busy flag while the second is pending, and
  their status banners overwrite each other), two reveals of the same
  record that both run the exchange, and ledger changes between the awaits
  of one run (the record read and the handle read of a reveal see the same
  ledger state here) are not modelled.
- The `console.error` logging in each `catch`.

=== FILE: controller.dfy ===
/** The page's own state and the reload of the record list (`loadData`,
    frontend/web/src/App.tsx, lines 78-124). The wallet, the read-only
    contract and its replies are inputs: the model fixes what the page does
    with each possible reply, not how the ledger produces it. */
module Controller {
  import opened Seqs
  import opened Js
  import opened Records
  import opened Stats

  /** The wallet connection as the page sees it. */
  datatype Session = Session(isConnected: bool, address: Option<string>)

  /** `isConnected && address`: connected, with a non-empty (truthy) address. */
  predicate CanSign(s: Session)
  {
    s.isConnected && s.address.Some? && s.address.value != ""
  }

  /** What asking for a contract object yields: one, nothing (`null`), or a thrown error. */
  datatype Acquire = Contract | NoContract | AcquireThrows(thrown: Thrown)

  /** The page state the core reads and writes. */
  datatype Page = Page(
    loading: bool,
    investments: seq<InvestmentData>,
    stats: ClubStats,
    contractAddress: string)

  /** The page before any load: no records, all-zero statistics, no contract address. */
  const InitialPage: Page := Page(true, [], ZeroStats, "")

  /** The statistics shown are those of the records shown, and every record
      shown went through the normalisation of a load. */
  predicate Coherent(p: Page)
  {
    && p.stats == ComputeStats(p.investments)
    && forall x :: x in p.investments ==> Loaded(x)
  }

  /** The replies a load consumes, in the order it asks for them. */
  datatype LoadReplies = LoadReplies(
    contract: Acquire,
    address: Result<string>,
    ids: Result<seq<string>>,
    read: string -> Result<StoredRecord>)

  /** `loadData`. */
  function Load(page: Page, session: Session, o: LoadReplies): (p: Page)
    ensures !p.loading
    ensures Coherent(page) ==> Coherent(p)
    ensures !session.isConnected ==> p == page.(loading := false)
    ensures o.contract != Contract ==> p == page.(loading := false)
    ensures p.investments != page.investments ==>
      session.isConnected && o.contract == Contract && o.address.Ok? && o.ids.Ok?
    // The address is recorded as soon as it is read, even when the id list then fails.
    ensures session.isConnected && o.contract == Contract && o.address.Ok? ==> p.contractAddress == o.address.value
    ensures o.address.Err? ==> p.contractAddress == page.contractAddress
    ensures session.isConnected && o.contract == Contract && o.address.Ok? && o.ids.Err? ==>
      p == page.(loading := false, contractAddress := o.address.value)
    ensures session.isConnected && o.contract == Contract && o.address.Ok? && o.ids.Ok? ==>
      && p.investments == LoadRecords(o.ids.value, o.read)
      && p.stats == ComputeStats(p.investments)
  {
    if !session.isConnected then page.(loading := false)
    else
      match o.contract
      case NoContract => page.(loading := false)
      case AcquireThrows(_) => page.(loading := false)
      case Contract =>
        match o.address
        case Err(_) => page.(loading := false)
        case Ok(address) =>
          var withAddress := page.(contractAddress := address);
          match o.ids
          case Err(_) => withAddress.(loading := false)
          case Ok(ids) =>
            var list := LoadRecords(ids, o.read);
            withAddress.(loading := false, investments := list, stats := ComputeStats(list))
  }

  lemma InitialPageCoherent()
    ensures Coherent(InitialPage)
  {
    assert ComputeStats([]) == ZeroStats;
  }
}

=== FILE: create.dfy ===
/** The create protocol of the page (`createInvestment`,
    frontend/web/src/App.tsx, lines 142-190): connection guard, parsing of
    the form with defaults, encryption, submission, confirmation, and the
    transaction-status messages shown along the way. The signer contract,
    the encryption gateway and the ledger's replies are inputs. */
module Create {
  import opened Seqs
  import opened Js
  import opened Records
  import opened Controller

  /** The create form, as typed by the user. */
  datatype Form = Form(name: string, amount: string, description: string, category: string, riskLevel: string)

  /** The form's contents when the page opens and after a successful create. */
  const BlankForm: Form := Form("", "", "", "DAO", "5")

  datatype StatusKind = Pending | Success | Error

  /** The banner messages of the protocol; `Text` gives their wording. */
  datatype Message = NoMessage | ConnectWallet | CreatingMsg | WaitingMsg | CreatedMsg | RejectedMsg | FailedMsg

  function Text(m: Message): string
  {
    match m
    case NoMessage => ""
    case ConnectWallet => "Please connect wallet"
    case CreatingMsg => "Creating encrypted investment..."
    case WaitingMsg => "Waiting for confirmation..."
    case CreatedMsg => "Investment created!"
    case RejectedMsg => "Transaction rejected"
    case FailedMsg => "Creation failed"
  }

  /** The transaction-status banner. */
  datatype TxStatus = TxStatus(visible: bool, kind: StatusKind, message: Message)

  const ConnectFirst: TxStatus := TxStatus(true, Error, ConnectWallet)
  const Creating: TxStatus := TxStatus(true, Pending, CreatingMsg)
  const Waiting: TxStatus := TxStatus(true, Pending, WaitingMsg)
  const Created: TxStatus := TxStatus(true, Success, CreatedMsg)

  /** The part of the page state the protocol touches. */
  datatype Ui = Ui(creating: bool, showModal: bool, form: Form, status: TxStatus)

  /** The ciphertext and input proof the encryption gateway returns. */
  datatype Encrypted = Encrypted(encryptedData: string, proof: string)

  /** The arguments of the ledger's creation call, in order. */
  datatype CreateRequest = CreateRequest(
    id: string,
    name: string,
    encryptedData: string,
    proof: string,
    riskLevel: int,
    publicValue2: int,
    description: string)

  /** The external calls the protocol makes. */
  datatype CreateCall =
    | GetSigner
    | Encrypt(contract: string, user: string, amount: int)
    | Submit(request: CreateRequest)
    | Confirm(request: CreateRequest)

  /** What the outside world answers: the signer contract, the encryption
      gateway, the ledger's acceptance of the transaction and its confirmation. */
  datatype CreateReplies = CreateReplies(
    signer: Acquire,
    encrypt: (string, string, int) -> Result<Encrypted>,
    submit: CreateRequest -> Result<()>,
    confirm: CreateRequest -> Result<()>)

  /** Everything one run of the protocol does: the final UI state, every
      status shown in order, every external call in order, the error that
      ended it (if any), and whether it reloaded the page. */
  datatype CreateRun = CreateRun(
    ui: Ui,
    statuses: seq<TxStatus>,
    calls: seq<CreateCall>,
    failure: Option<Thrown>,
    reloaded: bool)

  /** `parseInt(amount) || 0`. */
  function AmountOf(text: string): int
  {
    OrElse(ParseInt(text), 0)
  }

  /** `parseInt(riskLevel) || 5`: never zero, so a loaded record shows it unchanged. */
  function RiskOf(text: string): (r: int)
    ensures r != 0
  {
    OrElse(ParseInt(text), DefaultRiskLevel)
  }

  /** The record id built from the clock reading `now` (milliseconds). */
  function IdFor(now: nat): string
  {
    "investment-" + NatToString(now)
  }

  /** The status message for a caught error. */
  function FailureMessage(e: Thrown): (m: Message)
    ensures m == RejectedMsg <==> e.message.Some? && Contains(e.message.value, "rejected")
    ensures m == RejectedMsg || m == FailedMsg
    ensures Text(m) == (if e.message.Some? && Contains(e.message.value, "rejected") then "Transaction rejected" else "Creation failed")
  {
    if e.message.Some? && Contains(e.message.value, "rejected") then RejectedMsg else FailedMsg
  }

  function Last<T>(s: seq<T>): T
    requires |s| > 0
  {
    s[|s| - 1]
  }

  /** The status transitions of one create: from "creating" to "waiting"
      or to an error, from "waiting" to "created" or to an error. */
  predicate Step(a: TxStatus, b: TxStatus)
  {
    || (a == Creating && (b == Waiting || b.kind == Error))
    || (a == Waiting && (b == Created || b.kind == Error))
  }

  /** A complete run of the status machine: it starts at "creating",
      follows `Step`, and stops at a success or an error. */
  ghost predicate IsStatusPath(s: seq<TxStatus>)
  {
    && |s| >= 2
    && s[0] == Creating
    && (forall i :: 0 <= i < |s| - 1 ==> Step(s[i], s[i + 1]))
    && Last(s).kind != Pending
  }

  /** The `i`-th external call is of the kind the protocol makes at step `i`. */
  predicate InOrder(calls: seq<CreateCall>)
  {
    && |calls| <= 4
    && forall i :: 0 <= i < |calls| ==>
         (i == 0 ==> calls[i].GetSigner?) && (i == 1 ==> calls[i].Encrypt?)
         && (i == 2 ==> calls[i].Submit?) && (i == 3 ==> calls[i].Confirm?)
  }

  /** How far the `try` block got: the external calls it made, in order,
      and the error that stopped it, if any. */
  datatype Progress = Progress(calls: seq<CreateCall>, failure: Option<Thrown>)

  /** The error thrown when the signer contract comes back `null`. */
  const NoContractError: Thrown := Thrown(Some("No contract"))

  /** The ledger's creation call for the form, built from the clock reading and the gateway's output. */
  function RequestFor(now: nat, form: Form, c: Encrypted): CreateRequest
  {
    CreateRequest(IdFor(now), form.name, c.encryptedData, c.proof, RiskOf(form.riskLevel), 0, form.description)
  }

  /** What a failed `await` throws into the `catch` clause; nothing when it succeeded. */
  function Caught(r: Result<()>): Option<Thrown>
  {
    if r.Ok? then None else Some(r.thrown)
  }

  function Prepend(call: CreateCall, p: Progress): Progress
  {
    Progress([call] + p.calls, p.failure)
  }

  /** `await tx.wait()`. */
  function FromConfirm(request: CreateRequest, o: CreateReplies): (p: Progress)
    ensures p.calls == [Confirm(request)]
    ensures p.failure == Caught(o.confirm(request))
  {
    match o.confirm(request)
    case Ok(_) => Progress([Confirm(request)], None)
    case Err(e) => Progress([Confirm(request)], Some(e))
  }

  /** `contract.createBusinessData(...)`, then the confirmation once the ledger accepts. */
  function FromSubmit(request: CreateRequest, o: CreateReplies): (p: Progress)
    ensures |p.calls| == (if o.submit(request).Ok? then 2 else 1)
    ensures p.calls[0] == Submit(request)
    ensures |p.calls| == 2 ==> p.calls[1] == Confirm(request) && p.failure == Caught(o.confirm(request))
    ensures |p.calls| == 1 ==> p.failure == Some(o.submit(request).thrown)
  {
    match o.submit(request)
    case Err(e) => Progress([Submit(request)], Some(e))
    case Ok(_) =>
      var rest := FromConfirm(request, o);
      var p := Prepend(Submit(request), rest);
      assert p.calls[1..] == rest.calls;
      p
  }

  /** `encrypt(contractAddress, address, amount)` on the parsed amount, then the submission. */
  function FromEncrypt(user: string, contractAddress: string, now: nat, form: Form, o: CreateReplies): (p: Progress)
    ensures 1 <= |p.calls| <= 3
    ensures p.calls[0] == Encrypt(contractAddress, user, AmountOf(form.amount))
    ensures var e := o.encrypt(contractAddress, user, AmountOf(form.amount));
      && (|p.calls| >= 2 <==> e.Ok?)
      && (|p.calls| >= 2 ==> p.calls[1] == Submit(RequestFor(now, form, e.value)))
      && (|p.calls| >= 2 ==> (|p.calls| == 3 <==> o.submit(p.calls[1].request).Ok?))
    ensures |p.calls| == 1 ==> p.failure == Some(o.encrypt(contractAddress, user, AmountOf(form.amount)).thrown)
    ensures |p.calls| == 2 ==> p.failure == Some(o.submit(p.calls[1].request).thrown)
    ensures |p.calls| == 3 ==> p.calls[2] == Confirm(p.calls[1].request) && p.failure == Caught(o.confirm(p.calls[1].request))
  {
    var amount := AmountOf(form.amount);
    var call := Encrypt(contractAddress, user, amount);
    match o.encrypt(contractAddress, user, amount)
    case Err(e) => Progress([call], Some(e))
    case Ok(c) =>
      var rest := FromSubmit(RequestFor(now, form, c), o);
      var p := Prepend(call, rest);
      assert p.calls[1..] == rest.calls;
      p
  }

  /** The `try` block of `createInvestment` for the connected account `user`:
      the signer, then the encryption, the submission and the confirmation,
      each only once the previous step has succeeded. */
  function Attempt(user: string, contractAddress: string, now: nat, form: Form, o: CreateReplies): (p: Progress)
    ensures 1 <= |p.calls| <= 4 && InOrder(p.calls)
    ensures p.failure.None? ==> |p.calls| == 4
    ensures |p.calls| >= 2 <==> o.signer == Contract
    ensures o.signer == NoContract ==> p == Progress([GetSigner], Some(NoContractError))
    ensures |p.calls| >= 2 ==> p.calls[1] == Encrypt(contractAddress, user, AmountOf(form.amount))
    ensures var e := o.encrypt(contractAddress, user, AmountOf(form.amount));
      && (|p.calls| >= 3 <==> o.signer == Contract && e.Ok?)
      && (|p.calls| >= 3 ==> p.calls[2] == Submit(RequestFor(now, form, e.value)))
    ensures |p.calls| >= 3 ==> (|p.calls| == 4 <==> o.submit(p.calls[2].request).Ok?)
    ensures |p.calls| == 4 ==> p.calls[3] == Confirm(p.calls[2].request)
    // The error that ends the block is the one the failing step threw.
    ensures o.signer.AcquireThrows? ==> p.failure == Some(o.signer.thrown)
    ensures |p.calls| == 2 ==> p.failure == Some(o.encrypt(contractAddress, user, AmountOf(form.amount)).thrown)
    ensures |p.calls| == 3 ==> p.failure == Some(o.submit(p.calls[2].request).thrown)
    ensures |p.calls| == 4 ==> p.failure == Caught(o.confirm(p.calls[2].request))
  {
    match o.signer
    case NoContract => Progress([GetSigner], Some(NoContractError))
    case AcquireThrows(e) => Progress([GetSigner], Some(e))
    case Contract =>
      var rest := FromEncrypt(user, contractAddress, now, form, o);
      var p := Prepend(GetSigner, rest);
      assert p.calls[1..] == rest.calls;
      p
  }

  function Fail(ui: Ui, shown: seq<TxStatus>, calls: seq<CreateCall>, e: Thrown): CreateRun
  {
    var st := TxStatus(true, Error, FailureMessage(e));
    CreateRun(ui.(creating := false, status := st), shown + [st], calls, Some(e), false)
  }

  /** The two status prefixes of a started create, each completed by a
      success after "waiting" or by any error. */
  lemma StatusPathsEnd(shown: seq<TxStatus>)
    requires shown == [Creating] || shown == [Creating, Waiting]
    ensures shown == [Creating, Waiting] ==> IsStatusPath(shown + [Created])
    ensures forall st: TxStatus :: st.kind == Error ==> IsStatusPath(shown + [st]) && Last(shown + [st]) == st
    ensures Waiting in shown <==> shown == [Creating, Waiting]
  {
    forall st: TxStatus | st.kind == Error
      ensures IsStatusPath(shown + [st])
    {
      var path := shown + [st];
      assert forall i :: 0 <= i < |path| - 1 ==> Step(path[i], path[i + 1]);
    }
    assert Creating != Waiting;
  }

  /** `createInvestment`, started from UI state `ui` at clock reading `now`. */
  function CreateInvestment(ui: Ui, session: Session, page: Page, now: nat, o: CreateReplies): (run: CreateRun)
    // Connection guard: an error banner and nothing else.
    ensures !CanSign(session) ==>
      run.calls == [] && run.statuses == [ConnectFirst] && run.ui == ui.(status := ConnectFirst) && !run.reloaded
    // Once started, the external calls are those of the `try` block.
    ensures CanSign(session) ==> run.calls == Attempt(session.address.value, page.contractAddress, now, ui.form, o).calls
    ensures CanSign(session) ==> run.failure == Attempt(session.address.value, page.contractAddress, now, ui.form, o).failure
    // Once started, the status machine runs to completion and the busy flag is cleared.
    ensures CanSign(session) ==> IsStatusPath(run.statuses) && !run.ui.creating
    ensures CanSign(session) ==> (Last(run.statuses) == Created <==> run.failure.None?)
    // "Waiting for confirmation..." is shown exactly when the ledger accepted the transaction.
    ensures CanSign(session) ==> (Waiting in run.statuses <==> |run.calls| == 4)
    ensures run.reloaded <==> CanSign(session) && run.failure.None?
    // How it ends: a reset form and closed dialog on success; the form kept and a classified message on failure.
    ensures run.reloaded ==> run.ui == Ui(false, false, BlankForm, Created)
    ensures run.failure.Some? ==>
      && run.ui.form == ui.form && run.ui.showModal == ui.showModal
      && run.ui.status == Last(run.statuses)
      && Last(run.statuses) == TxStatus(true, Error, FailureMessage(run.failure.value))
  {
    if !CanSign(session) then
      CreateRun(ui.(status := ConnectFirst), [ConnectFirst], [], None, false)
    else
      var p := Attempt(session.address.value, page.contractAddress, now, ui.form, o);
      var shown := if |p.calls| == 4 then [Creating, Waiting] else [Creating];
      StatusPathsEnd(shown);
      match p.failure
      case None => CreateRun(Ui(false, false, BlankForm, Created), shown + [Created], p.calls, None, true)
      case Some(e) => Fail(ui.(creating := true), shown, p.calls, e)
  }

  /** The encryption input the protocol derives from the form. */
  function AmountCall(session: Session, page: Page, ui: Ui): CreateCall
    requires CanSign(session)
  {
    Encrypt(page.contractAddress, session.address.value, AmountOf(ui.form.amount))
  }

  /** Each external call happens only after the previous step succeeded:
      the signer before encryption, encryption before submission,
      submission before confirmation. */
  lemma CreateCallsInOrder(ui: Ui, session: Session, page: Page, now: nat, o: CreateReplies)
    ensures var run := CreateInvestment(ui, session, page, now, o);
      && InOrder(run.calls)
      && (|run.calls| >= 1 ==> CanSign(session))
      && (|run.calls| >= 2 ==> o.signer == Contract && run.calls[1] == AmountCall(session, page, ui))
      && (|run.calls| >= 3 ==> o.encrypt(page.contractAddress, session.address.value, AmountOf(ui.form.amount)).Ok?)
      && (|run.calls| == 4 ==> o.submit(run.calls[2].request).Ok? && run.calls[3].request == run.calls[2].request)
      && (run.reloaded ==> |run.calls| == 4 && o.confirm(run.calls[3].request).Ok?)
  {
    if CanSign(session) {
      var p := Attempt(session.address.value, page.contractAddress, now, ui.form, o);
    }
  }

  /** Once the gateway has encrypted the amount, the request submitted to
      the ledger carries the clock-derived id, the form's name and
      description, the gateway's ciphertext and proof, the parsed risk
      level, and 0 as the second public value. */
  lemma CreateSubmitsParsedForm(ui: Ui, session: Session, page: Page, now: nat, o: CreateReplies, c: Encrypted)
    requires CanSign(session) && o.signer == Contract
    requires o.encrypt(page.contractAddress, session.address.value, AmountOf(ui.form.amount)) == Ok(c)
    ensures var run := CreateInvestment(ui, session, page, now, o);
      && |run.calls| >= 3
      && run.calls[2] == Submit(CreateRequest(
           IdFor(now), ui.form.name, c.encryptedData, c.proof,
           RiskOf(ui.form.riskLevel), 0, ui.form.description))
  {
    var p := Attempt(session.address.value, page.contractAddress, now, ui.form, o);
  }

  /** How a started create ends, in terms of the replies alone: the error
      caught is the one the first failing step threw (a `null` signer
      throws "No contract"), its banner is classified from that error, and
      a run in which every step succeeds ends with "Investment created!"
      and a reload. */
  lemma CreateOutcomeFollowsReplies(ui: Ui, session: Session, page: Page, now: nat, o: CreateReplies)
    requires CanSign(session)
    ensures var run := CreateInvestment(ui, session, page, now, o);
      var e := o.encrypt(page.contractAddress, session.address.value, AmountOf(ui.form.amount));
      && (o.signer == NoContract ==> run.failure == Some(NoContractError))
      && (o.signer.AcquireThrows? ==> run.failure == Some(o.signer.thrown))
      && (o.signer == Contract && e.Err? ==> run.failure == Some(e.thrown))
      && (o.signer == Contract && e.Ok? && o.submit(RequestFor(now, ui.form, e.value)).Err? ==>
            run.failure == Some(o.submit(RequestFor(now, ui.form, e.value)).thrown))
      && (o.signer == Contract && e.Ok? && o.submit(RequestFor(now, ui.form, e.value)).Ok? ==>
            run.failure == Caught(o.confirm(RequestFor(now, ui.form, e.value))))
      && (run.failure.Some? ==> Last(run.statuses) == TxStatus(true, Error, FailureMessage(run.failure.value)))
      && (o.signer == Contract && e.Ok? && o.submit(RequestFor(now, ui.form, e.value)).Ok?
            && o.confirm(RequestFor(now, ui.form, e.value)).Ok? ==>
            run.reloaded && Last(run.statuses) == Created && run.ui == Ui(false, false, BlankForm, Created))
  {
    var p := Attempt(session.address.value, page.contractAddress, now, ui.form, o);
  }

  /** An amount typed as the decimal rendering of an integer is encrypted as that integer. */
  lemma AmountOfDecimal(i: int)
    ensures AmountOf(IntToString(i)) == i
  {
    ParseIntOfIntToString(i);
  }

  /** A risk level typed as a decimal integer is submitted as that integer,
      except 0, which becomes 5; nothing bounds it to [1, 10]. */
  lemma RiskOfDecimal(i: int)
    ensures RiskOf(IntToString(i)) == (if i == 0 then DefaultRiskLevel else i)
  {
    ParseIntOfIntToString(i);
  }

  /** Text with no decimal digit is submitted as amount 0 and risk level 5. */
  lemma UnparseableDefaults(text: string)
    requires forall i :: 0 <= i < |text| ==> !('0' <= text[i] <= '9')
    ensures AmountOf(text) == 0 && RiskOf(text) == DefaultRiskLevel
  {
    ParseIntWithoutDigits(text);
  }

  /** Read back from a ledger that stores the submitted risk level as the
      record's first public value and the submitted 0 as its second, a
      created record shows the risk level typed in the form (after the
      parse-with-default) and a second public value of 0. */
  lemma SubmittedRiskLevelSurvivesLoad(form: Form, id: string, raw: StoredRecord)
    requires raw.publicValue1 == Int(RiskOf(form.riskLevel))
    requires raw.publicValue2 == Int(0)
    ensures Normalize(id, raw).riskLevel == RiskOf(form.riskLevel)
    ensures Normalize(id, raw).publicValue1 == RiskOf(form.riskLevel)
    ensures Normalize(id, raw).publicValue2 == 0
  {
  }

  /** Ids from distinct clock readings differ; two creates in the same
      millisecond get the same id, and nothing checks for that. */
  lemma IdForInjective(a: nat, b: nat)
    ensures IdFor(a) == IdFor(b) <==> a == b
  {
    if IdFor(a) == IdFor(b) {
      var prefix := "investment-";
      assert NatToString(a) == IdFor(a)[|prefix|..];
      assert NatToString(b) == IdFor(b)[|prefix|..];
      IntToStringInjective(a, b);
    }
  }

  /** A signer that comes back `null` ends the run with "Creation failed"
      before anything is encrypted. */
  lemma NoSignerFailsBeforeEncrypting(ui: Ui, session: Session, page: Page, now: nat, o: CreateReplies)
    requires CanSign(session) && o.signer == NoContract
    ensures var run := CreateInvestment(ui, session, page, now, o);
      run.calls == [GetSigner] && Last(run.statuses) == TxStatus(true, Error, FailedMsg)
  {
    var m := NoContractError.message.value;
    forall k
      ensures !OccursAt(m, "rejected", k)
    {
      if 0 <= k && k + |"rejected"| <= |m| {
        assert m[k..k + |"rejected"|][0] == m[k] != 'r';
      }
    }
    ContainsIffOccurs(m, "rejected");
  }

  /** The busy flag does not guard the protocol: a create started while
      another is in flight makes the same calls and shows the same statuses. */
  lemma NoInFlightGuard(ui: Ui, session: Session, page: Page, now: nat, o: CreateReplies)
    ensures var a := CreateInvestment(ui.(creating := true), session, page, now, o);
      var b := CreateInvestment(ui.(creating := false), session, page, now, o);
      a.calls == b.calls && a.statuses == b.statuses && a.reloaded == b.reloaded
  {
  }
}

=== FILE: js.dfy ===
/** The fragment of JavaScript value semantics the page logic relies on:
    values that may be absent, numbers that may be NaN, the `||` fallback on
    numbers, values caught by `catch`, the global `parseInt` with no radix
    argument, and the decimal rendering of a non-negative integer in a
    template literal. */
module Js {

  /** A JavaScript number as the model sees it: NaN or an integer value.
      Fractions, infinities and the loss of precision above 2^53 are not
      represented. */
  datatype Number = NaN | Int(value: int)

  /** A number is truthy unless it is NaN or zero (negative zero included). */
  predicate Truthy(n: Number)
  {
    n.Int? && n.value != 0
  }

  /** `n || fallback`: the number itself when truthy, the fallback otherwise. */
  function OrElse(n: Number, fallback: int): (r: int)
    ensures Truthy(n) ==> r == n.value
    ensures !Truthy(n) ==> r == fallback
  {
    if Truthy(n) then n.value else fallback
  }

  /** A value that may be absent (`null` or `undefined`). */
  datatype Option<+T> = None | Some(value: T)

  /** The value a `catch` clause receives; only its `message` property is
      ever consulted, and it may be absent. */
  datatype Thrown = Thrown(message: Option<string>)

  /** The outcome of an awaited call: a value, or a thrown error. */
  datatype Result<+T> = Ok(value: T) | Err(thrown: Thrown)

  // ---------------------------------------------------------------------
  // parseInt(string) with the radix argument omitted, as ECMAScript
  // defines it: skip leading white space, read an optional sign, take a
  // "0x"/"0X" prefix as radix 16 (radix 10 otherwise), then read the
  // longest run of digits of that radix; no digits at all gives NaN.
  // ---------------------------------------------------------------------

  /** The ECMAScript WhiteSpace and LineTerminator code points (space separators of Unicode category Zs included). */
  predicate IsWhiteSpace(c: char)
  {
    || c == '\t' || c == '\n' || c == '\U{000B}' || c == '\U{000C}' || c == '\r'
    || c == ' ' || c == '\U{00A0}' || c == '\U{1680}'
    || ('\U{2000}' <= c <= '\U{200A}')
    || c == '\U{2028}' || c == '\U{2029}' || c == '\U{202F}' || c == '\U{205F}'
    || c == '\U{3000}' || c == '\U{FEFF}'
  }

  /** `s` with its leading white space removed. */
  function TrimStart(s: string): (r: string)
    ensures |r| <= |s| && r == s[|s| - |r|..]
    ensures |r| > 0 ==> !IsWhiteSpace(r[0])
    ensures forall i :: 0 <= i < |s| - |r| ==> IsWhiteSpace(s[i])
  {
    if |s| > 0 && IsWhiteSpace(s[0]) then TrimStart(s[1..]) else s
  }

  /** The digit value of `c` in radix 36 (0-9, then a-z or A-Z); 36 for any other character. */
  function DigitValue(c: char): (d: nat)
    ensures d <= 36
    ensures d < 10 <==> '0' <= c <= '9'
  {
    if '0' <= c <= '9' then c as int - '0' as int
    else if 'a' <= c <= 'z' then c as int - 'a' as int + 10
    else if 'A' <= c <= 'Z' then c as int - 'A' as int + 10
    else 36
  }

  /** The length of the longest prefix of `s` made only of digits of `radix`. */
  function DigitRun(s: string, radix: nat): (n: nat)
    ensures n <= |s|
    ensures forall i :: 0 <= i < n ==> DigitValue(s[i]) < radix
    ensures n < |s| ==> DigitValue(s[n]) >= radix
  {
    if |s| > 0 && DigitValue(s[0]) < radix then 1 + DigitRun(s[1..], radix) else 0
  }

  /** The value of the digit string `s` in `radix`, most significant digit first. */
  function DigitsValue(s: string, radix: nat): nat
  {
    if |s| == 0 then 0 else DigitsValue(s[..|s| - 1], radix) * radix + DigitValue(s[|s| - 1])
  }

  /** The longest run of `radix` digits at the start of `body`, read as a number; NaN when empty. */
  function ParseDigits(body: string, radix: nat): Number
  {
    var n := DigitRun(body, radix);
    if n == 0 then NaN else Int(DigitsValue(body[..n], radix))
  }

  /** The magnitude after the sign: a "0x" or "0X" prefix selects radix 16. */
  function ParseUnsigned(u: string): Number
  {
    if |u| >= 2 && u[0] == '0' && (u[1] == 'x' || u[1] == 'X') then ParseDigits(u[2..], 16)
    else ParseDigits(u, 10)
  }

  function Negate(n: Number): Number
  {
    if n.Int? then Int(-n.value) else NaN
  }

  /** `parseInt` after the leading white space: an optional sign, then the magnitude. */
  function ParseSigned(t: string): Number
  {
    if |t| > 0 && t[0] == '-' then Negate(ParseUnsigned(t[1..]))
    else if |t| > 0 && t[0] == '+' then ParseUnsigned(t[1..])
    else ParseUnsigned(t)
  }

  /** `parseInt(s)`: NaN when no digit follows the white space, sign and radix prefix. */
  function ParseInt(s: string): Number
  {
    ParseSigned(TrimStart(s))
  }

  /** A string without any ASCII decimal digit never parses to a number:
      even a hexadecimal literal needs its leading `0`. */
  lemma ParseIntWithoutDigits(s: string)
    requires forall i :: 0 <= i < |s| ==> !('0' <= s[i] <= '9')
    ensures ParseInt(s) == NaN
  {
    var t := TrimStart(s);
    if |t| > 0 && (t[0] == '-' || t[0] == '+') {
      assert |t| == 1 || t[1..][0] == s[|s| - |t| + 1];
      UnsignedWithoutLeadingDigit(t[1..]);
    } else {
      assert |t| == 0 || t[0] == s[|s| - |t|];
      UnsignedWithoutLeadingDigit(t);
    }
  }

  lemma UnsignedWithoutLeadingDigit(u: string)
    requires |u| == 0 || !('0' <= u[0] <= '9')
    ensures ParseUnsigned(u) == NaN
  {
  }

  // ---------------------------------------------------------------------
  // Decimal rendering of integers, as a template literal shows them.
  // ---------------------------------------------------------------------

  function DigitChar(d: nat): (c: char)
    requires d < 10
    ensures '0' <= c <= '9' && DigitValue(c) == d
  {
    (('0' as int) + d) as char
  }

  /** The decimal digits of `n`, without leading zeros. */
  function NatToString(n: nat): (s: string)
    ensures |s| > 0
    ensures forall i :: 0 <= i < |s| ==> '0' <= s[i] <= '9'
  {
    if n < 10 then [DigitChar(n)] else NatToString(n / 10) + [DigitChar(n % 10)]
  }

  function IntToString(i: int): (s: string)
  {
    if i < 0 then "-" + NatToString(-i) else NatToString(i)
  }

  lemma {:induction false} DigitsValueOfNatToString(n: nat)
    ensures DigitsValue(NatToString(n), 10) == n
  {
    var s := NatToString(n);
    if n >= 10 {
      assert s[..|s| - 1] == NatToString(n / 10);
      DigitsValueOfNatToString(n / 10);
    } else {
      assert s[..|s| - 1] == [];
    }
  }

  /** Reading back the digits of `n` (with no sign in front) yields `n`. */
  lemma ParseDigitsOfNat(n: nat)
    ensures var s := NatToString(n);
      && DigitRun(s, 10) == |s|
      && !(|s| >= 2 && s[0] == '0' && (s[1] == 'x' || s[1] == 'X'))
      && DigitsValue(s, 10) == n
      && ParseUnsigned(s) == Int(n)
  {
    var s := NatToString(n);
    DigitsValueOfNatToString(n);
    assert s[..|s|] == s;
  }

  /** parseInt reads back every integer rendered in decimal. */
  lemma ParseIntOfIntToString(i: int)
    ensures ParseInt(IntToString(i)) == Int(i)
  {
    var n: nat := if i < 0 then -i else i;
    var digits := NatToString(n);
    ParseDigitsOfNat(n);
    var s := IntToString(i);
    assert !IsWhiteSpace(s[0]);
    assert TrimStart(s) == s;
    if i < 0 {
      assert s[1..] == digits;
    }
  }

  /** Distinct integers render to distinct strings. */
  lemma IntToStringInjective(a: int, b: int)
    requires IntToString(a) == IntToString(b)
    ensures a == b
  {
    ParseIntOfIntToString(a);
    ParseIntOfIntToString(b);
  }
}

=== FILE: records.dfy ===
/** Investment records: the fields the ledger returns for one entry, the
    page's own `InvestmentData` shape, and the normalisation `loadData`
    applies between the two (frontend/web/src/App.tsx, lines 92-112). */
module Records {
  import opened Seqs
  import opened Js

  /** An opaque reference to a ciphertext held by the ledger. */
  type Handle = string

  /** One entry as the ledger's `getBusinessData` returns it. A numeric
      field missing from the reply is NaN once converted with `Number`. */
  datatype StoredRecord = StoredRecord(
    name: string,
    description: string,
    creator: string,
    timestamp: Number,
    publicValue1: Number,
    publicValue2: Number,
    isVerified: bool,
    decryptedValue: Number)

  /** The page's view of one investment proposal. `encryptedValue` stands
      for the untyped field of the source; the page never fills it. */
  datatype InvestmentData = InvestmentData(
    id: string,
    name: string,
    encryptedValue: Option<Handle>,
    publicValue1: int,
    publicValue2: int,
    description: string,
    creator: string,
    timestamp: Number,
    isVerified: bool,
    decryptedValue: int,
    category: string,
    riskLevel: int)

  /** The category every loaded record receives, whatever was chosen at creation. */
  const LoadedCategory: string := "Investment"

  /** The risk level shown when the ledger's first public value is NaN or zero. */
  const DefaultRiskLevel: int := 5

  /** The shape every normalised record has: a fixed category, no
      encrypted value, and a risk level that mirrors the first public value
      unless that value is zero. */
  predicate Loaded(x: InvestmentData)
  {
    && x.category == LoadedCategory
    && x.encryptedValue.None?
    && x.riskLevel == (if x.publicValue1 != 0 then x.publicValue1 else DefaultRiskLevel)
  }

  /** The record `loadData` builds from the ledger's reply for `id`. */
  function Normalize(id: string, raw: StoredRecord): (r: InvestmentData)
    ensures r.id == id && r.name == raw.name && r.description == raw.description
    ensures r.creator == raw.creator && r.isVerified == raw.isVerified && r.timestamp == raw.timestamp
    ensures Loaded(r)
    ensures r.publicValue1 == (if Truthy(raw.publicValue1) then raw.publicValue1.value else 0)
    ensures r.publicValue2 == (if Truthy(raw.publicValue2) then raw.publicValue2.value else 0)
    ensures r.decryptedValue == (if Truthy(raw.decryptedValue) then raw.decryptedValue.value else 0)
    ensures r.riskLevel != 0
    ensures Truthy(raw.publicValue1) <==> r.riskLevel == r.publicValue1
  {
    InvestmentData(
      id := id,
      name := raw.name,
      encryptedValue := None,
      publicValue1 := OrElse(raw.publicValue1, 0),
      publicValue2 := OrElse(raw.publicValue2, 0),
      description := raw.description,
      creator := raw.creator,
      timestamp := raw.timestamp,
      isVerified := raw.isVerified,
      decryptedValue := OrElse(raw.decryptedValue, 0),
      category := LoadedCategory,
      riskLevel := OrElse(raw.publicValue1, DefaultRiskLevel))
  }

  /** The records `loadData` collects for `ids`, in order; an entry whose
      read throws is skipped. */
  function LoadRecords(ids: seq<string>, read: string -> Result<StoredRecord>): (r: seq<InvestmentData>)
    ensures |r| <= |ids|
    ensures forall x :: x in r ==> x.id in ids && read(x.id).Ok? && x == Normalize(x.id, read(x.id).value)
    ensures forall x :: x in r ==> Loaded(x)
  {
    if |ids| == 0 then []
    else
      var rest := LoadRecords(ids[1..], read);
      match read(ids[0])
      case Ok(raw) => [Normalize(ids[0], raw)] + rest
      case Err(_) => rest
  }

  /** `r` holds, position by position, the normalised reply for each of `ids`. */
  ghost predicate NormalizesEach(r: seq<InvestmentData>, ids: seq<string>, read: string -> Result<StoredRecord>)
  {
    && |r| == |ids|
    && forall i :: 0 <= i < |ids| ==> read(ids[i]).Ok? && r[i] == Normalize(ids[i], read(ids[i]).value)
  }

  /** The test "the read of this id succeeds". */
  function Readable(read: string -> Result<StoredRecord>): string -> bool
  {
    id => read(id).Ok?
  }

  /** Loading is "keep the readable ids, in order, then normalise each":
      nothing is reordered, duplicated or invented. */
  lemma {:induction false} LoadRecordsIsFilterThenNormalize(ids: seq<string>, read: string -> Result<StoredRecord>)
    ensures NormalizesEach(LoadRecords(ids, read), Filter(ids, Readable(read)), read)
  {
    if |ids| > 0 {
      LoadRecordsIsFilterThenNormalize(ids[1..], read);
      var readable := Filter(ids, Readable(read));
      var tail := Filter(ids[1..], Readable(read));
      var loaded := LoadRecords(ids, read);
      var rest := LoadRecords(ids[1..], read);
      if read(ids[0]).Ok? {
        assert readable == [ids[0]] + tail;
        assert loaded == [Normalize(ids[0], read(ids[0]).value)] + rest;
      } else {
        assert readable == tail;
        assert loaded == rest;
      }
    }
  }

  /** When every read succeeds, the page holds exactly one normalised record per id, in id order. */
  lemma LoadRecordsAllReadable(ids: seq<string>, read: string -> Result<StoredRecord>)
    requires forall i :: 0 <= i < |ids| ==> read(ids[i]).Ok?
    ensures NormalizesEach(LoadRecords(ids, read), ids, read)
  {
    LoadRecordsIsFilterThenNormalize(ids, read);
    FilterKeepsAll(ids, Readable(read));
  }
}

=== FILE: reveal.dfy ===
/** The reveal protocol of the page (`decryptInvestment`,
    frontend/web/src/App.tsx, lines 192-223): guard, read of the stored
    record, short-circuit for an already verified record, otherwise fetch of
    the ciphertext handle and the decryption-verification exchange, whose
    proof submission goes back to the ledger. The ledger is an abstract
    state `L`; its reads and the verifier are inputs that depend on it. */
module Reveal {
  import opened Seqs
  import opened Js
  import opened Records
  import opened Controller

  /** The external calls the protocol makes. */
  datatype RevealCall =
    | GetReadOnly
    | ReadRecord(id: string)
    | GetSigner
    | ReadHandle(id: string)
    | VerifyDecryption(handles: seq<Handle>, contract: string, id: string)

  /** The clear values the verifier hands back, keyed by handle; absent
      when the verifier's answer has no decryption result. */
  type ClearValues = Option<map<Handle, int>>

  /** What the outside world answers. `verify` runs the off-chain
      decryption and the proof submission addressed to the record; it
      yields the ledger after that exchange and its own outcome. */
  datatype RevealReplies<!L> = RevealReplies(
    readOnly: Acquire,
    signer: Acquire,
    read: (L, string) -> Result<StoredRecord>,
    handleOf: (L, string) -> Result<Handle>,
    verify: (L, seq<Handle>, string, string) -> (L, Result<ClearValues>))

  /** One run: the value returned (`None` for `null`), the calls made, the
      ledger afterwards, and the page state afterwards. */
  datatype RevealRun<L> = RevealRun(value: Option<Number>, calls: seq<RevealCall>, ledger: L, page: Page)

  /** `Number(clearValues[handle])`: NaN when the handle has no entry. */
  function ClearNumber(m: map<Handle, int>, h: Handle): Number
  {
    if h in m then Int(m[h]) else NaN
  }

  /** The value the page reports for a record the ledger already marks verified. */
  function StoredClear(rec: StoredRecord): Number
  {
    Int(OrElse(rec.decryptedValue, 0))
  }

  /** `decryptInvestment(id)` against ledger state `ledger`. */
  function DecryptInvestment<L>(session: Session, page: Page, id: string, ledger: L, o: RevealReplies<L>): (run: RevealRun<L>)
    // The guard: nothing is read and nothing is returned.
    ensures !CanSign(session) ==> run.value.None? && run.calls == [] && run.ledger == ledger
    // The local record list, the statistics and the rest of the page are never touched.
    ensures run.page == page
    // The ledger can only change through the verification exchange.
    ensures (forall c :: c in run.calls ==> !c.VerifyDecryption?) ==> run.ledger == ledger
    // No read-only contract (null or thrown): one call, null, and the ledger untouched.
    ensures CanSign(session) && o.readOnly != Contract ==> run.calls == [GetReadOnly] && run.value.None? && run.ledger == ledger
    // A failed record read stops after the read.
    ensures CanSign(session) && o.readOnly == Contract && o.read(ledger, id).Err? ==>
      run.calls == [GetReadOnly, ReadRecord(id)]
    // No signer (null or thrown) for an unverified record: the signer request is the last call.
    ensures && CanSign(session) && o.readOnly == Contract
            && o.read(ledger, id).Ok? && !o.read(ledger, id).value.isVerified
            && o.signer != Contract
            ==> run.calls == [GetReadOnly, ReadRecord(id), GetSigner]
    // A failed handle read stops after that read.
    ensures && CanSign(session) && o.readOnly == Contract
            && o.read(ledger, id).Ok? && !o.read(ledger, id).value.isVerified
            && o.signer == Contract && o.handleOf(ledger, id).Err?
            ==> run.calls == [GetReadOnly, ReadRecord(id), GetSigner, ReadHandle(id)]
    // Every failure before the exchange gives null.
    ensures o.readOnly != Contract || o.read(ledger, id).Err? ==> run.value.None?
    // An already verified record: its stored value, with neither the signer nor the verifier involved.
    ensures CanSign(session) && o.readOnly == Contract && o.read(ledger, id).Ok? && o.read(ledger, id).value.isVerified ==>
      && run.value == Some(StoredClear(o.read(ledger, id).value))
      && run.calls == [GetReadOnly, ReadRecord(id)]
    // A missing signer or a failed handle read for an unverified record: null, with the ledger untouched.
    ensures && CanSign(session) && o.readOnly == Contract
            && o.read(ledger, id).Ok? && !o.read(ledger, id).value.isVerified
            && (o.signer != Contract || o.handleOf(ledger, id).Err?)
            ==> run.value.None? && run.ledger == ledger
    // An unverified record with a signer and a readable handle always goes through the exchange.
    ensures && CanSign(session) && o.readOnly == Contract
            && o.read(ledger, id).Ok? && !o.read(ledger, id).value.isVerified
            && o.signer == Contract && o.handleOf(ledger, id).Ok?
            ==> VerifyDecryption([o.handleOf(ledger, id).value], page.contractAddress, id) in run.calls
    // The exchange happens only for an unverified record, with its own handle, addressed to it.
    ensures forall c :: c in run.calls && c.VerifyDecryption? ==>
      && CanSign(session) && o.readOnly == Contract
      && o.read(ledger, id).Ok? && !o.read(ledger, id).value.isVerified
      && o.signer == Contract
      && o.handleOf(ledger, id).Ok?
      && c == VerifyDecryption([o.handleOf(ledger, id).value], page.contractAddress, id)
    // After the exchange: the ledger it left behind, and the clear value for the handle, or null.
    ensures forall c :: c in run.calls && c.VerifyDecryption? ==>
      var h := o.handleOf(ledger, id).value;
      var (after, outcome) := o.verify(ledger, [h], page.contractAddress, id);
      && run.ledger == after
      && run.value == (if outcome.Ok? && outcome.value.Some? then Some(ClearNumber(outcome.value.value, h)) else None)
    // A value for an unverified record exists only through the exchange.
    ensures run.value.Some? && !(o.read(ledger, id).Ok? && o.read(ledger, id).value.isVerified) ==>
      exists c :: c in run.calls && c.VerifyDecryption?
  {
    if !CanSign(session) then RevealRun(None, [], ledger, page)
    else
      match o.readOnly
      case NoContract => RevealRun(None, [GetReadOnly], ledger, page)
      case AcquireThrows(_) => RevealRun(None, [GetReadOnly], ledger, page)
      case Contract =>
        var reading := [GetReadOnly, ReadRecord(id)];
        match o.read(ledger, id)
        case Err(_) => RevealRun(None, reading, ledger, page)
        case Ok(rec) =>
          if rec.isVerified then RevealRun(Some(StoredClear(rec)), reading, ledger, page)
          else
            match o.signer
            case NoContract => RevealRun(None, reading + [GetSigner], ledger, page)
            case AcquireThrows(_) => RevealRun(None, reading + [GetSigner], ledger, page)
            case Contract =>
              match o.handleOf(ledger, id)
              case Err(_) => RevealRun(None, reading + [GetSigner, ReadHandle(id)], ledger, page)
              case Ok(h) =>
                var call := VerifyDecryption([h], page.contractAddress, id);
                var calls := reading + [GetSigner, ReadHandle(id), call];
                var (after, outcome) := o.verify(ledger, [h], page.contractAddress, id);
                assert call in calls;
                match outcome
                case Ok(Some(m)) => RevealRun(Some(ClearNumber(m, h)), calls, after, page)
                case Ok(None) => RevealRun(None, calls, after, page)
                case Err(_) => RevealRun(None, calls, after, page)
  }

  /** Revealing an already verified record is idempotent: a second call
      against the ledger the first one left returns the same value and
      leaves the ledger as it was. */
  lemma RevealVerifiedIdempotent<L>(session: Session, page: Page, id: string, ledger: L, o: RevealReplies<L>)
    requires CanSign(session) && o.readOnly == Contract
    requires o.read(ledger, id).Ok? && o.read(ledger, id).value.isVerified
    ensures var first := DecryptInvestment(session, page, id, ledger, o);
      var second := DecryptInvestment(session, page, id, first.ledger, o);
      second.value == first.value && second.ledger == first.ledger == ledger
  {
  }

  /** After a successful exchange, once the ledger reports the record as
      verified with the revealed amount, the next reveal returns the same
      value from the store without calling the verifier again. */
  lemma RevealAfterExchange<L>(session: Session, page: Page, id: string, ledger: L, o: RevealReplies<L>, v: int)
    requires CanSign(session) && o.readOnly == Contract
    requires DecryptInvestment(session, page, id, ledger, o).value == Some(Int(v))
    requires o.read(ledger, id).Ok? && !o.read(ledger, id).value.isVerified
    requires var after := DecryptInvestment(session, page, id, ledger, o).ledger;
      o.read(after, id).Ok? && o.read(after, id).value.isVerified && o.read(after, id).value.decryptedValue == Int(v)
    ensures var first := DecryptInvestment(session, page, id, ledger, o);
      var second := DecryptInvestment(session, page, id, first.ledger, o);
      && second.value == first.value
      && (forall c :: c in second.calls ==> !c.VerifyDecryption?)
      && (exists c :: c in first.calls && c.VerifyDecryption?)
  {
    var first := DecryptInvestment(session, page, id, ledger, o);
    var second := DecryptInvestment(session, page, id, first.ledger, o);
    assert second.calls == [GetReadOnly, ReadRecord(id)];
  }

  /** For an unverified record whose signer and handle are available, the
      reveal returns exactly what the verifier's answer holds for the
      record's handle (NaN when the handle has no entry), or `null` when the
      verifier fails or gives no decryption result, and the ledger is the
      one the exchange left behind. */
  lemma RevealReturnsVerifierValue<L>(session: Session, page: Page, id: string, ledger: L, o: RevealReplies<L>, h: Handle)
    requires CanSign(session) && o.readOnly == Contract && o.signer == Contract
    requires o.read(ledger, id).Ok? && !o.read(ledger, id).value.isVerified
    requires o.handleOf(ledger, id) == Ok(h)
    ensures var run := DecryptInvestment(session, page, id, ledger, o);
      var (after, outcome) := o.verify(ledger, [h], page.contractAddress, id);
      && run.calls == [GetReadOnly, ReadRecord(id), GetSigner, ReadHandle(id), VerifyDecryption([h], page.contractAddress, id)]
      && run.ledger == after
      && (outcome.Ok? && outcome.value.Some? ==> run.value == Some(ClearNumber(outcome.value.value, h)))
      && (outcome.Err? || outcome.value.None? ==> run.value.None?)
  {
  }
}

=== FILE: search.dfy ===
/** The list the page shows: records whose name or description contains
    the search term, ignoring case, and whose category matches the
    selected one (frontend/web/src/App.tsx, lines 240-245). Case folding
    (`toLowerCase`) is a parameter: the model does not fix Unicode's
    lower-casing table. */
module Search {
  import opened Seqs
  import opened Records

  /** The category selection that disables category filtering. */
  const AllCategories: string := "all"

  /** The per-record test of the filter. */
  predicate Matches(x: InvestmentData, searchTerm: string, filterCategory: string, lower: string -> string)
  {
    var needle := lower(searchTerm);
    && (Contains(lower(x.name), needle) || Contains(lower(x.description), needle))
    && (filterCategory == AllCategories || x.category == filterCategory)
  }

  function MatchesTest(searchTerm: string, filterCategory: string, lower: string -> string): InvestmentData -> bool
  {
    x => Matches(x, searchTerm, filterCategory, lower)
  }

  /** `filteredInvestments`: an order-preserving selection of the records,
      holding exactly those that pass the test. */
  function FilterInvestments(xs: seq<InvestmentData>, searchTerm: string, filterCategory: string, lower: string -> string): (r: seq<InvestmentData>)
    ensures IsSubseq(r, xs)
    ensures forall x :: x in r <==> x in xs && Matches(x, searchTerm, filterCategory, lower)
    // Every passing position is kept, duplicates included.
    ensures |r| == |set i | 0 <= i < |xs| && Matches(xs[i], searchTerm, filterCategory, lower)|
  {
    var test := MatchesTest(searchTerm, filterCategory, lower);
    FilterIsSubseq(xs, test);
    FilterCountsPositions(xs, test);
    assert Positions(xs, test) == set i | 0 <= i < |xs| && Matches(xs[i], searchTerm, filterCategory, lower);
    Filter(xs, MatchesTest(searchTerm, filterCategory, lower))
  }

  /** With an empty search term (which lower-cases to itself) and the "all"
      category, every record is shown, in order. */
  lemma EmptySearchShowsAll(xs: seq<InvestmentData>, lower: string -> string)
    requires lower("") == ""
    ensures FilterInvestments(xs, "", AllCategories, lower) == xs
  {
    forall i | 0 <= i < |xs|
      ensures Matches(xs[i], "", AllCategories, lower)
    {
      ContainsEmpty(lower(xs[i].name));
    }
    FilterKeepsAll(xs, MatchesTest("", AllCategories, lower));
  }

  /** Loaded records all carry the category "Investment", so selecting any
      other category than "all" (such as "DAO", "DeFi", "NFT" or
      "Infrastructure") shows nothing. */
  lemma OtherCategoryShowsNothing(xs: seq<InvestmentData>, searchTerm: string, filterCategory: string, lower: string -> string)
    requires forall x :: x in xs ==> Loaded(x)
    requires filterCategory != AllCategories && filterCategory != LoadedCategory
    ensures FilterInvestments(xs, searchTerm, filterCategory, lower) == []
  {
    var r := FilterInvestments(xs, searchTerm, filterCategory, lower);
    assert forall i :: 0 <= i < |r| ==> r[i] in r;
  }

  /** Applying the same filter to the filtered list changes nothing. */
  lemma FilterInvestmentsIdempotent(xs: seq<InvestmentData>, searchTerm: string, filterCategory: string, lower: string -> string)
    ensures var r := FilterInvestments(xs, searchTerm, filterCategory, lower);
      FilterInvestments(r, searchTerm, filterCategory, lower) == r
  {
    FilterIdempotent(xs, MatchesTest(searchTerm, filterCategory, lower));
  }
}

=== FILE: seqs.dfy ===
/** Generic sequence vocabulary shared by the model: order-preserving
    filtering, subsequences, contiguous containment (the
    `includes` of JavaScript strings and arrays) and summation over a
    sequence. */
module Seqs {

  /** `a` is obtained from `b` by deleting elements, keeping the order of the rest. */
  ghost predicate IsSubseq<T>(a: seq<T>, b: seq<T>)
    decreases |b|
  {
    if |a| == 0 then true
    else if |b| == 0 then false
    else (a[0] == b[0] && IsSubseq(a[1..], b[1..])) || IsSubseq(a, b[1..])
  }

  /** The elements of `xs` satisfying `keep`, in their original order
      (JavaScript `Array.prototype.filter`). */
  function Filter<T>(xs: seq<T>, keep: T -> bool): (r: seq<T>)
    ensures |r| <= |xs|
    ensures forall x :: x in r ==> x in xs && keep(x)
    ensures forall x :: x in xs && keep(x) ==> x in r
  {
    if |xs| == 0 then []
    else if keep(xs[0]) then [xs[0]] + Filter(xs[1..], keep)
    else Filter(xs[1..], keep)
  }

  lemma {:induction false} FilterIsSubseq<T>(xs: seq<T>, keep: T -> bool)
    ensures IsSubseq(Filter(xs, keep), xs)
  {
    if |xs| > 0 {
      FilterIsSubseq(xs[1..], keep);
      var r := Filter(xs, keep);
      if keep(xs[0]) {
        assert r[0] == xs[0] && r[1..] == Filter(xs[1..], keep);
      } else if |r| > 0 {
        assert IsSubseq(r, xs[1..]);
      }
    }
  }

  lemma {:induction false} FilterConcat<T>(a: seq<T>, b: seq<T>, keep: T -> bool)
    ensures Filter(a + b, keep) == Filter(a, keep) + Filter(b, keep)
  {
    if |a| == 0 {
      assert a + b == b;
    } else {
      assert (a + b)[0] == a[0];
      assert (a + b)[1..] == a[1..] + b;
      FilterConcat(a[1..], b, keep);
    }
  }

  lemma {:induction false} FilterKeepsAll<T>(xs: seq<T>, keep: T -> bool)
    requires forall i :: 0 <= i < |xs| ==> keep(xs[i])
    ensures Filter(xs, keep) == xs
  {
    if |xs| > 0 {
      FilterKeepsAll(xs[1..], keep);
      assert [xs[0]] + xs[1..] == xs;
    }
  }

  /** The positions of `xs` whose element passes `keep`. */
  ghost function Positions<T>(xs: seq<T>, keep: T -> bool): set<int>
  {
    set i | 0 <= i < |xs| && keep(xs[i])
  }

  /** Appending one element adds its own position when it passes, and nothing else. */
  lemma PositionsSnoc<T>(ys: seq<T>, z: T, keep: T -> bool)
    ensures Positions(ys + [z], keep) == Positions(ys, keep) + (if keep(z) then {|ys|} else {})
    ensures |ys| !in Positions(ys, keep)
  {
    var xs := ys + [z];
    forall i | 0 <= i < |ys|
      ensures xs[i] == ys[i]
    {
    }
  }

  /** The length of a filtered sequence is the number of positions whose element passes the test. */
  lemma {:induction false} FilterCountsPositions<T>(xs: seq<T>, keep: T -> bool)
    ensures |Filter(xs, keep)| == |Positions(xs, keep)|
    decreases |xs|
  {
    if |xs| == 0 {
      assert Positions(xs, keep) == {};
    } else {
      var ys := xs[..|xs| - 1];
      var z := xs[|xs| - 1];
      assert xs == ys + [z];
      FilterCountsPositions(ys, keep);
      PositionsSnoc(ys, z, keep);
      FilterConcat(ys, [z], keep);
      assert [z][1..] == [];
      assert |Filter([z], keep)| == (if keep(z) then 1 else 0);
    }
  }

  /** Filtering a filtered sequence again with the same test changes nothing. */
  lemma FilterIdempotent<T>(xs: seq<T>, keep: T -> bool)
    ensures Filter(Filter(xs, keep), keep) == Filter(xs, keep)
  {
    var r := Filter(xs, keep);
    assert forall i :: 0 <= i < |r| ==> r[i] in r;
    FilterKeepsAll(r, keep);
  }

  /** Removing the element at `i` removes at most that element from the filtered sequence. */
  lemma FilterRemove<T>(ys: seq<T>, i: int, keep: T -> bool)
    requires 0 <= i < |ys|
    ensures |Filter(ys, keep)| == (if keep(ys[i]) then 1 else 0) + |Filter(ys[..i] + ys[i + 1..], keep)|
  {
    assert ys == ys[..i] + ([ys[i]] + ys[i + 1..]);
    FilterConcat(ys[..i], [ys[i]] + ys[i + 1..], keep);
    FilterConcat(ys[..i], ys[i + 1..], keep);
    FilterConcat([ys[i]], ys[i + 1..], keep);
  }

  /** How many elements pass a filter does not depend on their order. */
  lemma {:induction false} FilterLengthPermutation<T>(xs: seq<T>, ys: seq<T>, keep: T -> bool)
    requires multiset(xs) == multiset(ys)
    ensures |Filter(xs, keep)| == |Filter(ys, keep)|
    decreases |xs|
  {
    if |xs| == 0 {
      assert |ys| == |multiset(ys)| == 0;
    } else {
      var x := xs[0];
      assert x in multiset(ys) by {
        assert x in multiset(xs);
      }
      var i :| 0 <= i < |ys| && ys[i] == x;
      var rest := ys[..i] + ys[i + 1..];
      assert multiset(xs[1..]) == multiset(rest) by {
        assert xs == [x] + xs[1..];
        MultisetRemove(ys, i);
      }
      FilterLengthPermutation(xs[1..], rest, keep);
      FilterRemove(ys, i, keep);
    }
  }

  /** The sum of `f` over the elements of `xs`. */
  function SumBy<T>(xs: seq<T>, f: T -> int): int
  {
    if |xs| == 0 then 0 else f(xs[0]) + SumBy(xs[1..], f)
  }

  lemma {:induction false} SumByConcat<T>(a: seq<T>, b: seq<T>, f: T -> int)
    ensures SumBy(a + b, f) == SumBy(a, f) + SumBy(b, f)
  {
    if |a| == 0 {
      assert a + b == b;
    } else {
      assert (a + b)[0] == a[0];
      assert (a + b)[1..] == a[1..] + b;
      SumByConcat(a[1..], b, f);
    }
  }

  /** Removing the element at `i` removes its contribution from the sum. */
  lemma {:induction false} SumByRemove<T>(ys: seq<T>, i: int, f: T -> int)
    requires 0 <= i < |ys|
    ensures SumBy(ys, f) == f(ys[i]) + SumBy(ys[..i] + ys[i + 1..], f)
    decreases i
  {
    var rest := ys[..i] + ys[i + 1..];
    if i == 0 {
      assert rest == ys[1..];
    } else {
      var tail := ys[1..];
      SumByRemove(tail, i - 1, f);
      assert tail[i - 1] == ys[i];
      assert rest[0] == ys[0];
      assert rest[1..] == tail[..i - 1] + tail[i..];
    }
  }

  lemma MultisetRemove<T>(ys: seq<T>, i: int)
    requires 0 <= i < |ys|
    ensures multiset(ys[..i] + ys[i + 1..]) == multiset(ys) - multiset{ys[i]}
  {
    assert ys == ys[..i] + [ys[i]] + ys[i + 1..];
  }

  /** A sum over a sequence depends only on its elements and their
      multiplicities, not on their order. */
  lemma {:induction false} SumByPermutation<T>(xs: seq<T>, ys: seq<T>, f: T -> int)
    requires multiset(xs) == multiset(ys)
    ensures SumBy(xs, f) == SumBy(ys, f)
    decreases |xs|
  {
    if |xs| == 0 {
      assert |ys| == |multiset(ys)| == 0;
    } else {
      var x := xs[0];
      assert x in multiset(ys) by {
        assert x in multiset(xs);
      }
      var i :| 0 <= i < |ys| && ys[i] == x;
      var rest := ys[..i] + ys[i + 1..];
      assert multiset(xs[1..]) == multiset(rest) by {
        assert xs == [x] + xs[1..];
        MultisetRemove(ys, i);
      }
      SumByPermutation(xs[1..], rest, f);
      SumByRemove(ys, i, f);
    }
  }

  /** `needle` occurs in `hay` starting at position `k`. */
  ghost predicate OccursAt<T>(hay: seq<T>, needle: seq<T>, k: int)
  {
    0 <= k && k + |needle| <= |hay| && hay[k..k + |needle|] == needle
  }

  /** `needle` occurs as a contiguous block of `hay` (JavaScript `includes`). */
  predicate Contains<T(==)>(hay: seq<T>, needle: seq<T>)
    decreases |hay|
  {
    if |needle| <= |hay| && hay[..|needle|] == needle then true
    else if |hay| == 0 then false
    else Contains(hay[1..], needle)
  }

  /** `Contains` agrees with the positional definition of an occurrence, in both directions. */
  lemma {:induction false} ContainsIffOccurs<T>(hay: seq<T>, needle: seq<T>)
    ensures Contains(hay, needle) <==> exists k :: OccursAt(hay, needle, k)
    decreases |hay|
  {
    if |needle| <= |hay| && hay[..|needle|] == needle {
      assert OccursAt(hay, needle, 0);
    } else if |hay| == 0 {
    } else {
      ContainsIffOccurs(hay[1..], needle);
      if Contains(hay[1..], needle) {
        var k :| OccursAt(hay[1..], needle, k);
        assert hay[1..][k..k + |needle|] == hay[k + 1..k + 1 + |needle|];
        assert OccursAt(hay, needle, k + 1);
      }
      if exists k :: OccursAt(hay, needle, k) {
        var k :| OccursAt(hay, needle, k);
        if k != 0 {
          assert hay[1..][k - 1..k - 1 + |needle|] == hay[k..k + |needle|];
          assert OccursAt(hay[1..], needle, k - 1);
        }
      }
    }
  }

  /** The empty sequence occurs in every sequence. */
  lemma ContainsEmpty<T>(hay: seq<T>)
    ensures Contains(hay, [])
  {
    assert hay[..0] == [];
  }
}

=== FILE: stats.dfy ===
/** The club-wide statistics `updateClubStats` derives from the record
    list (frontend/web/src/App.tsx, lines 126-140). */
module Stats {
  import opened Seqs
  import opened Records

  datatype ClubStats = ClubStats(
    totalProposals: nat,
    verifiedProposals: nat,
    totalInvestment: int,
    activeMembers: nat,
    avgReturn: real)

  /** The statistics the page starts with, before any load. */
  const ZeroStats: ClubStats := ClubStats(0, 0, 0, 0, 0.0)

  function IsVerified(x: InvestmentData): bool
  {
    x.isVerified
  }

  /** What one record adds to the total investment: its clear amount when
      verified, nothing otherwise. */
  function VerifiedAmount(x: InvestmentData): int
  {
    if x.isVerified then x.decryptedValue else 0
  }

  function DecryptedValue(x: InvestmentData): int
  {
    x.decryptedValue
  }

  function PublicValue1(x: InvestmentData): int
  {
    x.publicValue1
  }

  /** The distinct creators of the records in `xs`. */
  function Creators(xs: seq<InvestmentData>): (r: set<string>)
    ensures |r| <= |xs|
    ensures |xs| > 0 ==> |r| >= 1
    ensures forall i :: 0 <= i < |xs| ==> xs[i].creator in r
    ensures forall c :: c in r ==> exists i :: 0 <= i < |xs| && xs[i].creator == c
  {
    if |xs| == 0 then {}
    else
      var rest := Creators(xs[1..]);
      CreatorsStep(xs, rest);
      {xs[0].creator} + rest
  }

  /** The creators of `xs` are those of its tail plus the creator of its head. */
  lemma CreatorsStep(xs: seq<InvestmentData>, rest: set<string>)
    requires |xs| > 0
    requires forall i :: 0 <= i < |xs| - 1 ==> xs[1..][i].creator in rest
    requires forall c :: c in rest ==> exists i :: 0 <= i < |xs| - 1 && xs[1..][i].creator == c
    ensures forall i :: 0 <= i < |xs| ==> xs[i].creator in {xs[0].creator} + rest
    ensures forall c :: c in {xs[0].creator} + rest ==> exists i :: 0 <= i < |xs| && xs[i].creator == c
  {
    forall c | c in rest
      ensures exists i :: 0 <= i < |xs| && xs[i].creator == c
    {
      var j :| 0 <= j < |xs| - 1 && xs[1..][j].creator == c;
      assert xs[j + 1].creator == c;
    }
    forall i | 1 <= i < |xs|
      ensures xs[i].creator in rest
    {
      assert xs[i] == xs[1..][i - 1];
    }
  }

  /** `updateClubStats(data)`. */
  function ComputeStats(xs: seq<InvestmentData>): (s: ClubStats)
    ensures s.totalProposals == |xs|
    ensures s.verifiedProposals <= s.totalProposals
    ensures s.activeMembers <= s.totalProposals
    ensures |xs| > 0 ==> s.activeMembers >= 1
    ensures |xs| == 0 ==> s == ZeroStats
    ensures |xs| > 0 ==> s.avgReturn * (|xs| as real) == SumBy(xs, PublicValue1) as real
  {
    ClubStats(
      totalProposals := |xs|,
      verifiedProposals := |Filter(xs, IsVerified)|,
      totalInvestment := SumBy(xs, VerifiedAmount),
      activeMembers := |Creators(xs)|,
      avgReturn := if |xs| > 0 then SumBy(xs, PublicValue1) as real / |xs| as real else 0.0)
  }

  /** The verified records are exactly those whose flag is set, and the
      total investment is the sum of the clear amounts of exactly those
      records. */
  lemma {:induction false} TotalInvestmentIsSumOverVerified(xs: seq<InvestmentData>)
    ensures ComputeStats(xs).totalInvestment == SumBy(Filter(xs, IsVerified), DecryptedValue)
    ensures forall x :: x in Filter(xs, IsVerified) <==> x in xs && x.isVerified
  {
    if |xs| > 0 {
      TotalInvestmentIsSumOverVerified(xs[1..]);
      var f := Filter(xs[1..], IsVerified);
      if xs[0].isVerified {
        assert Filter(xs, IsVerified) == [xs[0]] + f;
        assert ([xs[0]] + f)[1..] == f;
      }
    }
  }

  /** The verified count is the number of positions holding a record whose flag is set. */
  lemma VerifiedCountIsVerifiedPositions(xs: seq<InvestmentData>)
    ensures ComputeStats(xs).verifiedProposals == |set i | 0 <= i < |xs| && xs[i].isVerified|
  {
    FilterCountsPositions(xs, IsVerified);
    assert Positions(xs, IsVerified) == set i | 0 <= i < |xs| && xs[i].isVerified;
  }

  /** The member count is the number of distinct creators in the list. */
  lemma ActiveMembersAreDistinctCreators(xs: seq<InvestmentData>)
    ensures ComputeStats(xs).activeMembers == |set i | 0 <= i < |xs| :: xs[i].creator|
  {
    var creators := set i | 0 <= i < |xs| :: xs[i].creator;
    assert Creators(xs) == creators;
  }

  /** Reordering the records changes no statistic. */
  lemma StatsPermutationInvariant(xs: seq<InvestmentData>, ys: seq<InvestmentData>)
    requires multiset(xs) == multiset(ys)
    ensures ComputeStats(xs) == ComputeStats(ys)
  {
    assert |xs| == |multiset(xs)| == |multiset(ys)| == |ys|;
    FilterLengthPermutation(xs, ys, IsVerified);
    SumByPermutation(xs, ys, VerifiedAmount);
    SumByPermutation(xs, ys, PublicValue1);
    forall c
      ensures c in Creators(xs) <==> c in Creators(ys)
    {
      if c in Creators(xs) {
        var i :| 0 <= i < |xs| && xs[i].creator == c;
        assert xs[i] in multiset(ys);
      }
      if c in Creators(ys) {
        var i :| 0 <= i < |ys| && ys[i].creator == c;
        assert ys[i] in multiset(xs);
      }
    }
    assert Creators(xs) == Creators(ys);
  }

  /** Appending an unverified record adds a proposal but leaves the verified
      count and the total investment unchanged. */
  lemma AppendUnverified(xs: seq<InvestmentData>, u: InvestmentData)
    requires !u.isVerified
    ensures ComputeStats(xs + [u]).totalProposals == ComputeStats(xs).totalProposals + 1
    ensures ComputeStats(xs + [u]).verifiedProposals == ComputeStats(xs).verifiedProposals
    ensures ComputeStats(xs + [u]).totalInvestment == ComputeStats(xs).totalInvestment
  {
    SumByConcat(xs, [u], VerifiedAmount);
    FilterConcat(xs, [u], IsVerified);
    assert Filter([u], IsVerified) == [];
  }

  /** Records with the same creators position by position have the same creator set. */
  lemma CreatorsPointwise(xs: seq<InvestmentData>, ys: seq<InvestmentData>)
    requires |xs| == |ys|
    requires forall j :: 0 <= j < |xs| ==> xs[j].creator == ys[j].creator
    ensures Creators(xs) == Creators(ys)
  {
    forall c
      ensures c in Creators(xs) <==> c in Creators(ys)
    {
      if c in Creators(xs) {
        var j :| 0 <= j < |xs| && xs[j].creator == c;
        assert ys[j].creator == c;
      }
      if c in Creators(ys) {
        var j :| 0 <= j < |ys| && ys[j].creator == c;
        assert xs[j].creator == c;
      }
    }
  }

  /** The clear amount stored on an unverified record influences no
      statistic: changing it leaves all five fields as they were. */
  lemma UnverifiedAmountIrrelevant(xs: seq<InvestmentData>, i: int, v: int)
    requires 0 <= i < |xs| && !xs[i].isVerified
    ensures ComputeStats(xs[i := xs[i].(decryptedValue := v)]) == ComputeStats(xs)
  {
    var ys := xs[i := xs[i].(decryptedValue := v)];
    var rest := xs[..i] + xs[i + 1..];
    assert ys[..i] + ys[i + 1..] == rest;
    assert SumBy(ys, VerifiedAmount) == SumBy(xs, VerifiedAmount) by {
      SumByRemove(xs, i, VerifiedAmount);
      SumByRemove(ys, i, VerifiedAmount);
    }
    assert SumBy(ys, PublicValue1) == SumBy(xs, PublicValue1) by {
      SumByRemove(xs, i, PublicValue1);
      SumByRemove(ys, i, PublicValue1);
    }
    assert |Filter(ys, IsVerified)| == |Filter(xs, IsVerified)| by {
      FilterRemove(xs, i, IsVerified);
      FilterRemove(ys, i, IsVerified);
    }
    CreatorsPointwise(xs, ys);
  }

  /** One verified record whose clear amount is 1000: one proposal, one
      verified, a total of 1000 and one member. */
  lemma SingleVerifiedRecord(x: InvestmentData)
    requires x.isVerified && x.decryptedValue == 1000
    ensures ComputeStats([x]) == ClubStats(1, 1, 1000, 1, x.publicValue1 as real)
  {
    assert [x][1..] == [];
    assert Filter([x], IsVerified) == [x];
    assert SumBy([x], VerifiedAmount) == 1000;
    assert SumBy([x], PublicValue1) == x.publicValue1;
    assert Creators([x]) == {x.creator};
  }
}
